=== FILE: README.md ===
# Journal submission core, modelled in Dafny

This project models the decision logic of `app.py`, the one-file Flask
application of a small academic journal. The model covers:

- the upload filter `allowed_file`;
- account registration and sign-in (`register`, `login`);
- creating a submission (`submit`) with its optional file and its
  co-author list;
- editing a submission (`edit_submission`): the ownership check, the field
  update, the wholesale replacement of co-author rows, and the `", "`-joined
  co-author text that the edit page pre-fills;
- the role-scoped listings of `dashboard` and `submissions`;
- the public reads of `index` (current issue, recent articles) and
  `article`.

The SQLite database is an in-memory `Store` datatype. It holds one sequence
per relation (`users`, `submissions`, `coauthors`, `files`, `issues`), in
row-id order. Each request handler is a pure function from a store and the
request's inputs to a new store and an outcome. New rows get the id SQLite
assigns: one more than the largest id present, or 1 in an empty table. A
`one=True` query without `ORDER BY` returns the first matching row in row-id
order.

`datetime('now')` is the parameter `now`. Password hashing and checking are
parameters: the hash arrives as a value and the check is a predicate.
`secure_filename` is a function parameter.

Modules follow the program's layers:

- `Common`: `Option`, `Min`.
- `PyText`: the Python `str` operations the code uses (`isspace`, `strip`,
  `split`, `join`, `lower`, and the last-separator position used by
  `rsplit(sep, 1)`).
- `CoAuthorText`: the co-author field parser and its joiner.
- `Upload`: `ALLOWED_EXTENSIONS` and `allowed_file`.
- `Store`: the relations, row ids and lookups.
- `Query`: `WHERE`, `ORDER BY … DESC` and `LIMIT` over sequences.
- `Identity`: registration and sign-in.
- `Repository`: create, edit and the edit form.
- `Views`: listings and the public pages.

Two behaviours of the code shape the model:

- **Missing and foreign submissions share one outcome.**
  `edit_submission` gives the same redirect and message when the
  submission does not exist and when the caller does not own it
  (app.py:207-209). The model therefore has one outcome for both,
  `NotFoundOrForbidden`.
- **Create and edit are not atomic.** Every `execute_db` commits on its
  own (app.py:45). The model describes the state after a request that
  completes, and claims nothing about partial failure.

## Model

| member | source | states |
|---|---|---|
| Upload.Extension | app.py:49 | There is no extension exactly when the name has no dot. Otherwise the extension holds no dot and the name is some prefix, a dot, then the extension, so the cut is at the last dot. |
| Upload.LastDotUnique | app.py:49 | Any dot with no dot after it is the dot that `rsplit('.', 1)` cuts at. |
| Upload.AllowedFile | app.py:48-49 | `allowed_file` accepts a name if and only if the name has a dot with no later dot, and the text after that dot, lower-cased, is one of pdf, doc, docx, txt. |
| Upload.RefusedNames | app.py:49 | "report" (no dot) and "x." (empty extension) are refused. |
| Upload.UpperCaseMultiDot | app.py:49 | "A.B.PDF" is accepted: case is ignored and only the last dot counts. |
| Upload.BareExtension | app.py:49 | ".txt" is accepted. |
| Upload.DoubleExtension | app.py:49 | "paper.pdf.exe" is refused: an allowed inner extension does not help. |
| PyText.Strip | app.py:188 | `strip()` gives a contiguous slice with whitespace-only text on both sides. The slice has no whitespace at either end and is empty exactly when the input is all whitespace. |
| PyText.StripStripped | app.py:188 | Stripping a string with no whitespace at its ends changes nothing. |
| PyText.StripLeadingSpace | app.py:188 | A leading space does not change the result of `strip()`. |
| PyText.Split | app.py:188 | `split(sep)` yields at least one piece. No piece contains the separator, and joining the pieces with the separator rebuilds the input. |
| PyText.JoinInjective | app.py:240 | Joining separator-free pieces with a one-character separator loses nothing: equal joins come from equal piece lists. |
| PyText.SplitJoin | app.py:240 | Splitting the join of separator-free pieces returns the pieces. |
| PyText.SplitConcat | app.py:188 | Splitting `a + sep + b` gives the pieces of `a` followed by the pieces of `b`. |
| PyText.LowerChar | app.py:49 | Lower-casing maps A–Z to a–z, leaves every other character alone, and never yields an upper-case ASCII letter. |
| PyText.LastIndexOf | app.py:49 | Finds no index exactly when the character is absent. A found index holds the character and nothing after it does. |
| CoAuthorText.Clean | app.py:188 | Keeping the stripped non-blank pieces never adds entries. Every kept entry is non-empty and stripped, and it is comma-free when the pieces are. |
| CoAuthorText.ParseEmails | app.py:188 | Every parsed co-author address is non-empty, stripped and comma-free. |
| CoAuthorText.ParseConcat | app.py:188 | Parsing is piece-wise: the entries of `a + "," + b` are those of `a` followed by those of `b`, in order, with duplicates kept. |
| CoAuthorText.ParsePiece | app.py:188 | A comma-free piece contributes its stripped text, or nothing when that text is empty. |
| CoAuthorText.ParseLeadingSpace | app.py:188 | A leading space in the field does not change the parsed list. |
| CoAuthorText.ParseBlank | app.py:228 | A field made only of whitespace and commas, including an empty one, parses to no co-authors. |
| CoAuthorText.ParseExample | app.py:188 | "a@x.com, , b@y.com, a@x.com" parses to three entries, in order. The blank piece is dropped and the repeated address is kept. |
| CoAuthorText.JoinEmails | app.py:240 | The edit page's `", "`-joined text of parsed entries parses back to exactly those entries. |
| CoAuthorText.ParseJoinEmails | app.py:240 | Re-parsing the `", "`-joined text of any list of parsed entries gives that list back. |
| CoAuthorText.ParseIdempotent | app.py:238-240 | Parsing the pre-filled text of a parsed field reproduces the parse, so saving the edit form unchanged keeps the list. |
| Store.NextId | app.py:181-184 | A new row id is at least 1 and above every existing id. It is 1 in an empty table, and otherwise one more than an existing id. |
| Store.UserByEmail | app.py:84 | Looking up an address finds nothing exactly when no account has it. Otherwise it finds an account with exactly that address. |
| Store.UserById | app.py:71 | Looking up an author id finds nothing exactly when no account has it. Otherwise it finds an account with that id. |
| Store.SubmissionById | app.py:205 | Looking up a submission id finds nothing exactly when no row has it. Otherwise it finds a row with that id. |
| Store.SubmissionByIdAt | app.py:205 | A found submission is the first row with that id. |
| Store.SubmissionByIdFirst | app.py:205 | The first row with an id is what the lookup finds. |
| Store.UserByEmailUnique | app.py:84 | When addresses are unique, looking up an account's address finds that account. |
| Store.SubmissionByFreshId | app.py:181-184 | A row appended with an id above all others is found by its id. |
| Query.Filter | app.py:146 | `WHERE` keeps exactly the rows that satisfy the condition, as a sub-multiset of the input. |
| Query.FilterCount | app.py:146 | `WHERE` keeps every satisfying row as many times as it occurs, and no other row. |
| Query.SortDesc | app.py:146 | `ORDER BY … DESC` gives the same rows, as a multiset, ordered from the largest key down. |
| Query.Limit | app.py:151 | `LIMIT n` keeps the first min(length, n) rows. |
| Query.TopRows | app.py:151 | `ORDER BY … DESC LIMIT n` is ordered, drawn from the input, and min(length, n) long. No row left out has a larger key than a row kept. |
| Identity.EmailTaken | app.py:121-123 | The duplicate check (a positive count of accounts with the address) holds exactly when the sign-in lookup of the address finds an account. |
| Identity.Register | app.py:113-131 | Checks run in this order: mismatched confirmation, then fewer than 6 characters, then an address already in use. Registration succeeds if and only if all three pass. A failure leaves the store unchanged. A success appends exactly one active, e-mail-verified author with the form's fields, the password hash and a fresh id, and leaves the other relations alone. |
| Identity.Login | app.py:84-93 | An unknown address gives invalid credentials. A session is granted only to an active account with that address whose password check passes, and carries that account's id, role and full name. The inactive outcome is given only to an inactive account whose password check passes. |
| Identity.LoginDecision | app.py:84-92 | When addresses are unique, signing in as an account gives: invalid credentials if the password check fails, the inactive outcome if it passes on an inactive account, and otherwise a session for that account. |
| Identity.RegisterKeepsEmailsUnique | app.py:121-131 | Registration never creates a second account for an address. |
| Identity.RegisterTwice | app.py:121-125 | Registering the same address again is refused as a duplicate and changes nothing. |
| Identity.RegisterThenLogin | app.py:84-92 | A fresh registration can sign in at once, with the password it registered, as an active author named by the form. |
| Repository.RowsOf | app.py:239 | The rows fetched for a submission are exactly its stored rows: each of them as many times as stored, and no row of another submission. |
| Repository.Resolve | app.py:190-193 | There is one row per parsed address, in order, keeping the raw address. A row has no user link exactly when no account holds that exact address. Otherwise it links to an account that does. |
| Repository.ReplaceCoAuthors | app.py:189-193 | After the delete and re-insert, the submission's co-author rows are exactly the new ones, in order. Every other submission's rows are unchanged. |
| Repository.ReplacePreservesWellFormed | app.py:189-193 | Replacing a submission's rows with parsed entries keeps every stored address a parsed entry. |
| Repository.AttachFile | app.py:168-179 | The upload branch stores a file and yields its id exactly when a file was sent and `allowed_file` accepts its name. Otherwise the store is unchanged. On success only the `files` table grows, by one row with a fresh id. |
| Repository.StoreFile | app.py:176-179 | An accepted upload appends one `files` row with a fresh id, the sanitised name, the MIME type, the uploader and the time. Nothing else changes. |
| Repository.Create | app.py:168-193 | Submitting appends exactly one row with a fresh id, owned by the caller, status submitted, stage submission, in no issue and unpublished, with the form's fields. It has a file only when a file was sent and `allowed_file` accepts its name, and only then is a `files` row added. Its co-author rows are the resolved parsed addresses. Accounts, issues and other submissions' co-authors are unchanged. |
| Repository.UpdateRows | app.py:218-224 | The `UPDATE` changes only rows with the edited id. In those rows only title, abstract, keywords, language, section and updated-at change, to the form's values and `now`. |
| Repository.MayEdit | app.py:205-207 | The edit guard holds exactly when the first submission row with the id exists and belongs to the caller. |
| Repository.Edit | app.py:205-233 | An edit is refused exactly when the submission is missing or the caller is not its author, and a refused edit changes nothing. An accepted edit rewrites only the edited row's form fields and updated-at, keeping author, status, stage, file, issue and dates. It replaces that submission's co-author rows with the resolved parsed addresses and leaves accounts, files, issues and other co-author rows as they were. |
| Repository.EditFormCoAuthors | app.py:239-240 | The edit page is shown exactly to the owner of an existing submission. When every stored address is a parsed entry, which Create and Edit maintain, its co-author text parses back to the stored addresses of that submission. |
| Repository.StoredListRoundTrip | app.py:239-240 | When every stored address is a parsed entry, the joined text of a submission's addresses parses back to those addresses. |
| Repository.EmailsOfResolve | app.py:190-193 | The resolved rows keep the parsed addresses exactly. |
| Repository.CreateThenEditForm | app.py:186-193 | After submitting, the owner's edit page pre-fills text that parses to the same list as the submitted field. |
| Repository.EditThenEditForm | app.py:226-233 | After an edit, the pre-filled text parses to the same list as the posted field. An empty field leaves the submission with no co-authors. |
| Repository.EditKeepsOwner | app.py:207 | An accepted edit keeps the submission editable by the same caller. |
| Views.AuthorListing | app.py:144-148 | An author's listing holds all and only their own submissions, each as often as stored, ordered by submission date from newest. |
| Views.StaffListing | app.py:149-152 | Any other role sees the `limit` newest submissions of all authors, or all of them when there are fewer. The listing is newest first, and no submission left out is newer than one shown. |
| Views.Listing | app.py:144-152 | The listing is newest first. An author gets every one of their own submissions, as often as stored, and nothing else. Any other role gets the `limit` newest submissions of all authors, or all of them when there are fewer, and no submission left out is newer than one shown. |
| Views.Dashboard | app.py:144-152 | The dashboard is that listing with a cap of 20: an author sees all and only their own submissions, and staff see the 20 newest of all, newest first. |
| Views.SubmissionsPage | app.py:249-257 | The submissions page is that listing with a cap of 50: an author sees all and only their own submissions, and staff see the 50 newest of all, newest first. |
| Views.CreateThenListed | app.py:181-184 | A new submission appears exactly once in its author's listing, as submitted, at the submission stage, in no issue. |
| Views.CreateKeepsIdsUnique | app.py:181-184 | Submitting keeps submission ids unique. |
| Views.AppendFreshKeepsIdsUnique | app.py:181-184 | Appending a row whose id is above all others keeps ids unique. |
| Views.PublishedArticles | app.py:69-73 | The join yields only published submissions paired with their author's account. It yields every published submission whose author has an account, each as often as it is stored, and no other row. |
| Views.RecentArticles | app.py:68-76 | The home page shows at most 10 rows, all published with an existing author, ordered by publication date from newest (undated last). Each qualifying row appears at most as often as it qualifies. It shows the ten newest, or all when fewer qualify, and no qualifying row left out is newer than one shown. |
| Views.ArticleById | app.py:263-273 | The article page shows a submission with the requested id only if it is published and its author has an account. It shows nothing exactly when no such submission exists, so an unpublished submission looks the same as a missing one. |
| Views.RecentArticleOpens | app.py:263-273 | When submission ids are unique, the article page of any recent article shows that same submission. |
| Views.CurrentIssue | app.py:64-67 | The current issue, if any, is both flagged current and published. There is none exactly when no issue is both. |

## Left out

- Flask plumbing is not modelled: routing, `render_template`, `flash`, `redirect`, the `login_required` decorator and the `uploaded_file` download route (app.py:51-58, 276-279). These are presentation and session mechanics. A listing or edit takes the signed-in session as an argument.
- The SQLite connection helpers `get_db`, `close_connection`, `query_db` and `execute_db` (app.py:22-46) are replaced by the in-memory `Store`.
- Create and edit are not atomic in the code, because every statement commits on its own. The model gives the final state of a request that completes and says nothing about a request that fails half-way.
- `generate_password_hash` and `check_password_hash` are a foreign library. The hash is an input value and the check is a predicate parameter.
- `secure_filename`, the `uuid4` file name, `os.makedirs` and `file.save` (app.py:171-175) are filesystem I/O. Only the `files` row is modelled, and its `filepath` column is left out.
- `datetime('now')` is the parameter `now`, a natural number that orders like the timestamp text.
- Ties in `ORDER BY` are left open, as in SQLite. Listings are specified as sorted and made of the filtered rows: all of them, each as often as stored, when uncapped, and the newest ones as a sub-multiset when capped. No particular tie order is specified.
- `logout` only clears the session (app.py:96-100). The dashboard's fetch of the signed-in user (app.py:142) only feeds the page.
- The `sections` catalogue is left out. This covers the `isactive` list on the submit and edit forms (app.py:198, 238) and the `LEFT JOIN`s that add section and issue display columns. They filter no rows.
- The form's `sectionid` text is taken as an optional id. SQLite's type affinity, which turns the text into an integer, is not modelled.
- A request missing a required form field is not modelled. Flask answers it with an error page before anything is written.
- `users.id` is a primary key. The article and recent-articles joins pair a submission with the first account carrying its author id, which is the only one in a real database. Lemmas that need unique ids or addresses state it as a precondition.
- `str.lower()` is modelled on ASCII letters only. This is exact here. The only non-ASCII characters whose lower case contains ASCII letters are U+0130 and U+212A. Their lower cases are "i̇" (an i plus a combining dot, U+0307) and "k", and neither can complete one of the four all-ASCII allowed extensions.
- Identity.Login: its contract alone only says what each outcome implies, so it never forces a session or the inactive outcome; a function always answering invalid credentials would meet it. The exact first-match decision is stated by Identity.LoginDecision for stores with unique addresses, which registration maintains.
- Repository.Create: the `INSERT` at app.py:182 leaves `issueid`, `updatedat` and `publisheddate` unset. The model gives them no value, which assumes the schema's defaults for these columns are NULL. The schema is not part of this model.
- Views.CurrentIssue: `LIMIT 1` without `ORDER BY` may return any qualifying issue. The model picks the first in row order, and its contract claims only what holds for any choice.
- The code has no editorial workflow. Nothing changes a submission's status or stage after creation, and nothing sets its issue or publication date. None of this is modelled, and neither is the "one current issue" rule, which the code does not enforce.

=== FILE: coauthor_text.dfy ===
/** The free-text co-author field of the submission form (app.py, `submit`
    and `edit_submission`): parsing it into a list of e-mail addresses, and
    the `", "`-joined text the edit page pre-fills it with. */
module CoAuthorText {
  import opened PyText

  /** What the parser can produce: a non-empty, stripped, comma-free entry. */
  predicate IsEntry(e: string) {
    e != [] && IsStripped(e) && ',' !in e
  }

  /** `[p.strip() for p in pieces if p.strip()]`: never more entries than
      pieces, each non-empty and stripped, and comma-free when the pieces are. */
  function Clean(pieces: seq<string>): (r: seq<string>)
    ensures |r| <= |pieces|
    ensures forall i :: 0 <= i < |r| ==> r[i] != [] && IsStripped(r[i])
    ensures (forall i :: 0 <= i < |pieces| ==> ',' !in pieces[i]) ==>
              forall i :: 0 <= i < |r| ==> ',' !in r[i]
  {
    CleanEntries(pieces);
    ConcatMap(pieces, Kept)
  }

  lemma {:induction false} CleanEntries(pieces: seq<string>)
    ensures |ConcatMap(pieces, Kept)| <= |pieces|
    ensures forall i :: 0 <= i < |ConcatMap(pieces, Kept)| ==>
              ConcatMap(pieces, Kept)[i] != [] && IsStripped(ConcatMap(pieces, Kept)[i])
    ensures (forall i :: 0 <= i < |pieces| ==> ',' !in pieces[i]) ==>
              forall i :: 0 <= i < |ConcatMap(pieces, Kept)| ==> ',' !in ConcatMap(pieces, Kept)[i]
    decreases |pieces|
  {
    if pieces != [] {
      CleanEntries(pieces[1..]);
      var head, tail := Kept(pieces[0]), ConcatMap(pieces[1..], Kept);
      assert ConcatMap(pieces, Kept) == head + tail;
      if forall i :: 0 <= i < |pieces| ==> ',' !in pieces[i] {
        assert ',' !in pieces[0];
        assert forall i :: 0 <= i < |pieces[1..]| ==> ',' !in pieces[1..][i];
      }
    }
  }

  /** What one piece contributes: its stripped text, unless that is empty. */
  function Kept(piece: string): (r: seq<string>)
    ensures |r| <= 1
    ensures forall i :: 0 <= i < |r| ==> r[i] != [] && IsStripped(r[i])
    ensures ',' !in piece ==> forall i :: 0 <= i < |r| ==> ',' !in r[i]
  {
    var e := Strip(piece);
    if e == [] then [] else [e]
  }

  /** The co-author list of a submission form: the field cut at every
      comma, each piece stripped of surrounding whitespace, and the pieces
      left empty dropped, in order. */
  function ParseEmails(raw: string): (r: seq<string>)
    ensures forall i :: 0 <= i < |r| ==> IsEntry(r[i])
  {
    Clean(Split(raw, ','))
  }

  /** The edit page's pre-filled field: `', '.join(emails)`. Text joined
      from parsed entries parses back to exactly those entries. */
  function JoinEmails(emails: seq<string>): (r: string)
    ensures (forall i :: 0 <= i < |emails| ==> IsEntry(emails[i])) ==> ParseEmails(r) == emails
  {
    JoinedEntriesParse(emails);
    Join(", ", emails)
  }

  lemma JoinedEntriesParse(emails: seq<string>)
    ensures (forall i :: 0 <= i < |emails| ==> IsEntry(emails[i])) ==> ParseEmails(Join(", ", emails)) == emails
  {
    if forall i :: 0 <= i < |emails| ==> IsEntry(emails[i]) {
      ParseJoinEmails(emails);
    }
  }

  lemma CleanConcat(p: seq<string>, q: seq<string>)
    ensures Clean(p + q) == Clean(p) + Clean(q)
  {
    ConcatMapConcat(p, q, Kept);
  }

  /** Parsing is piece-wise: the entries of `a + "," + b` are the entries of
      `a` followed by the entries of `b`, in order, duplicates kept. */
  lemma ParseConcat(a: string, b: string)
    ensures ParseEmails(a + "," + b) == ParseEmails(a) + ParseEmails(b)
  {
    SplitConcat(',', a, b);
    CleanConcat(Split(a, ','), Split(b, ','));
  }

  /** A single comma-free piece contributes its stripped text, or nothing
      when it is blank. */
  lemma ParsePiece(s: string)
    requires ',' !in s
    ensures Strip(s) == [] ==> ParseEmails(s) == []
    ensures Strip(s) != [] ==> ParseEmails(s) == [Strip(s)]
  {
    SplitWithoutSeparator(',', s);
    assert Split(s, ',')[1..] == [];
  }

  /** A leading space never changes the parsed list. */
  lemma ParseLeadingSpace(x: string)
    ensures ParseEmails(" " + x) == ParseEmails(x)
  {
    var pieces := Split(x, ',');
    var s := [' '] + x;
    assert s == " " + x;
    assert s[1..] == x;
    assert Split(s, ',') == [[' '] + pieces[0]] + pieces[1..];
    assert [' '] + pieces[0] == " " + pieces[0];
    StripLeadingSpace(pieces[0]);
    assert pieces == [pieces[0]] + pieces[1..];
  }

  /** The edit-page round trip: re-parsing the `", "`-joined list of stored
      entries gives back exactly that list. */
  lemma {:induction false} ParseJoinEmails(emails: seq<string>)
    requires forall i :: 0 <= i < |emails| ==> IsEntry(emails[i])
    ensures ParseEmails(Join(", ", emails)) == emails
    decreases |emails|
  {
    if |emails| == 0 {
      ParseBlank("");
    } else if |emails| == 1 {
      ParseStrippedPiece(emails[0]);
    } else {
      ParseJoinEmails(emails[1..]);
      ParseJoinStep(emails);
    }
  }

  /** The inductive step of the round trip: the first entry, then the rest. */
  lemma ParseJoinStep(emails: seq<string>)
    requires |emails| >= 2 && IsEntry(emails[0])
    requires ParseEmails(Join(", ", emails[1..])) == emails[1..]
    ensures ParseEmails(Join(", ", emails)) == emails
  {
    var e, rest := emails[0], emails[1..];
    var tail := Join(", ", rest);
    JoinStep(emails);
    EntryThenRest(e, tail, rest);
    assert emails == [e] + rest;
  }

  lemma EntryThenRest(e: string, tail: string, rest: seq<string>)
    requires IsEntry(e) && ParseEmails(tail) == rest
    ensures ParseEmails(e + "," + (" " + tail)) == [e] + rest
  {
    ParseStrippedPiece(e);
    ParseLeadingSpace(tail);
    ParseCons(e, tail, rest);
  }

  /** An entry, a comma and the rest parse to the entry followed by the
      rest's entries. */
  lemma ParseCons(e: string, tail: string, rest: seq<string>)
    requires ParseEmails(e) == [e]
    requires ParseEmails(" " + tail) == rest
    ensures ParseEmails(e + "," + (" " + tail)) == [e] + rest
  {
    ParseConcat(e, " " + tail);
  }

  /** Joining with `", "` puts a comma and a space after the first entry. */
  lemma JoinStep(emails: seq<string>)
    requires |emails| >= 2
    ensures Join(", ", emails) == emails[0] + "," + (" " + Join(", ", emails[1..]))
  {
  }

  /** Parsing the pre-filled text of an already parsed field reproduces it:
      saving the edit form unchanged leaves the co-author list as it was. */
  lemma ParseIdempotent(raw: string)
    ensures ParseEmails(JoinEmails(ParseEmails(raw))) == ParseEmails(raw)
  {
    ParseJoinEmails(ParseEmails(raw));
  }

  /** A blank field, empty or made only of whitespace and commas, has no
      co-authors. */
  lemma {:induction false} ParseBlank(raw: string)
    requires forall k :: 0 <= k < |raw| ==> raw[k] == ',' || IsSpace(raw[k])
    ensures ParseEmails(raw) == []
    decreases |raw|
  {
    match LastIndexOf(raw, ',')
    case None =>
      assert SpaceBetween(raw, 0, |raw|);
      ParsePiece(raw);
    case Some(i) =>
      var a, b := raw[..i], raw[i + 1..];
      assert raw == a + "," + b;
      assert SpaceBetween(b, 0, |b|) by {
        forall k | 0 <= k < |b| ensures IsSpace(b[k]) {
          assert b[k] == raw[i + 1 + k];
          assert b[k] in raw[i + 1..];
        }
      }
      ParsePiece(b);
      ParseBlank(a);
      ParseConcat(a, b);
  }

  /** An example field: the blank middle piece is dropped, the pieces
      around it are stripped, the repeated address is kept, order is kept. */
  lemma ParseExample()
    ensures ParseEmails("a@x.com, , b@y.com, a@x.com") == ["a@x.com", "b@y.com", "a@x.com"]
  {
    var a, b := "a@x.com", "b@y.com";
    var tail := (" " + b) + "," + (" " + a);
    var mid := " " + "," + tail;
    ExampleShape();
    BlankThenEntries(a, b);
    ParseConcat(a, mid);
    ParseStrippedPiece(a);
  }

  lemma BlankThenEntries(a: string, b: string)
    requires IsEntry(a) && IsEntry(b)
    ensures ParseEmails(" " + "," + ((" " + b) + "," + (" " + a))) == [b, a]
  {
    var tail := (" " + b) + "," + (" " + a);
    SpacedEntries(a, b);
    ParseConcat(" ", tail);
    ParseBlank(" ");
  }

  lemma ExampleShape()
    ensures IsEntry("a@x.com") && IsEntry("b@y.com")
    ensures "a@x.com, , b@y.com, a@x.com"
         == "a@x.com" + "," + (" " + "," + ((" " + "b@y.com") + "," + (" " + "a@x.com")))
  {
  }

  lemma ParseStrippedPiece(e: string)
    requires IsEntry(e)
    ensures ParseEmails(e) == [e]
    ensures ParseEmails(" " + e) == [e]
  {
    StripStripped(e);
    ParsePiece(e);
    ParseLeadingSpace(e);
  }

  lemma SpacedEntries(a: string, b: string)
    requires IsEntry(a) && IsEntry(b)
    ensures ParseEmails((" " + b) + "," + (" " + a)) == [b, a]
  {
    ParseConcat(" " + b, " " + a);
    ParseStrippedPiece(a);
    ParseStrippedPiece(b);
  }
}

=== FILE: common.dfy ===
/** Shared wrapper types: SQL NULL and "no row" become `None`. */
module Common {

  /** A value that may be absent: a nullable column, or a query with `one=True`
      that found no row. */
  datatype Option<+T> = None | Some(value: T)

  function Min(a: int, b: int): (r: int)
    ensures r <= a && r <= b
    ensures r == a || r == b
  {
    if a <= b then a else b
  }
}

=== FILE: identity.dfy ===
/** Account creation and sign-in: the `register` and `login` views of
    app.py without their page rendering. Password hashing is a foreign
    library: the salted hash of a new password arrives as a value, and
    checking a password against a stored hash is a predicate parameter. */
module Identity {
  import opened Common
  import opened Store

  /** The fields the registration form posts. */
  datatype RegistrationForm = RegistrationForm(
    email: string,
    firstName: string,
    lastName: string,
    password: string,
    confirmPassword: string,
    affiliation: string,
    country: string)

  datatype RegisterOutcome = Registered(userId: Id) | PasswordMismatch | WeakPassword | DuplicateEmail

  datatype RegisterResponse = RegisterResponse(store: Store, outcome: RegisterOutcome)

  /** Shortest accepted password, in characters. */
  const MinPasswordLength: nat := 6

  /** `SELECT COUNT(*) FROM users WHERE email = ?` is positive: exactly
      when the sign-in lookup of the address finds an account. */
  predicate EmailTaken(users: seq<User>, email: string)
    ensures EmailTaken(users, email) <==> UserByEmail(users, email).Some?
  {
    exists u :: u in users && u.email == email
  }

  /** `register` (POST). `passwordHash` is what the hashing library produced
      for `form.password`; `now` is the database clock. */
  function Register(st: Store, form: RegistrationForm, passwordHash: string, now: Time): (r: RegisterResponse)
    ensures form.password != form.confirmPassword ==> r.outcome == PasswordMismatch
    ensures form.password == form.confirmPassword && |form.password| < MinPasswordLength
            ==> r.outcome == WeakPassword
    ensures (form.password == form.confirmPassword && |form.password| >= MinPasswordLength
             && EmailTaken(st.users, form.email)) ==> r.outcome == DuplicateEmail
    ensures r.outcome.Registered? <==>
            form.password == form.confirmPassword && |form.password| >= MinPasswordLength
            && !EmailTaken(st.users, form.email)
    ensures !r.outcome.Registered? ==> r.store == st
    ensures r.outcome.Registered? ==>
            && |r.store.users| == |st.users| + 1
            && r.store.users[..|st.users|] == st.users
            && NewAuthor(r.store.users[|st.users|], r.outcome.userId, form, passwordHash, now)
            && (forall u :: u in st.users ==> u.id < r.outcome.userId)
            && r.store.submissions == st.submissions && r.store.coauthors == st.coauthors
            && r.store.files == st.files && r.store.issues == st.issues
  {
    if form.password != form.confirmPassword then RegisterResponse(st, PasswordMismatch)
    else if |form.password| < MinPasswordLength then RegisterResponse(st, WeakPassword)
    else if EmailTaken(st.users, form.email) then RegisterResponse(st, DuplicateEmail)
    else
      var id := NextId(st.users, UserId);
      var u := User(id, form.email, passwordHash, form.firstName, form.lastName, Author,
                    form.affiliation, form.country, Active, true, now, now);
      assert (st.users + [u])[..|st.users|] == st.users;
      assert forall v :: v in st.users ==> v.id < id by {
        forall v | v in st.users ensures v.id < id {
          var i :| 0 <= i < |st.users| && st.users[i] == v;
          assert UserId(st.users[i]) < id;
        }
      }
      RegisterResponse(st.(users := st.users + [u]), Registered(id))
  }

  /** The account a successful registration creates: the form's fields, the
      password only as its hash, role author, status active, e-mail verified. */
  predicate NewAuthor(u: User, id: Id, form: RegistrationForm, passwordHash: string, now: Time) {
    && u.id == id
    && u.email == form.email
    && u.passwordHash == passwordHash
    && u.firstName == form.firstName && u.lastName == form.lastName
    && u.affiliation == form.affiliation && u.country == form.country
    && u.role == Author && u.status == Active && u.emailVerified
    && u.createdAt == now && u.updatedAt == now
  }

  /** What `login` leaves in the session. */
  datatype Session = Session(userId: Id, role: Role, userName: string)

  datatype LoginOutcome = LoggedIn(session: Session) | InactiveAccount | InvalidCredentials

  /** `login` (POST). `checkPassword(hash, password)` is the library's
      hash check. */
  function Login(st: Store, email: string, password: string,
                 checkPassword: (string, string) -> bool): (r: LoginOutcome)
    ensures (forall u :: u in st.users ==> u.email != email) ==> r == InvalidCredentials
    ensures r.LoggedIn? ==> exists u :: u in st.users && u.email == email
                                       && checkPassword(u.passwordHash, password)
                                       && u.status == Active
                                       && r.session == Session(u.id, u.role, u.firstName + " " + u.lastName)
    ensures r == InactiveAccount ==> exists u :: u in st.users && u.email == email
                                               && checkPassword(u.passwordHash, password)
                                               && u.status != Active
  {
    match UserByEmail(st.users, email)
    case None => InvalidCredentials
    case Some(u) =>
      if !checkPassword(u.passwordHash, password) then InvalidCredentials
      else if u.status != Active then InactiveAccount
      else LoggedIn(Session(u.id, u.role, u.firstName + " " + u.lastName))
  }

  /** With unique e-mails, the outcome of signing in as the holder `u` of an
      address is decided by the password check first and the account status
      second; an inactive account never gets a session. */
  lemma LoginDecision(st: Store, u: User, password: string, checkPassword: (string, string) -> bool)
    requires EmailsUnique(st.users) && u in st.users
    ensures !checkPassword(u.passwordHash, password)
            ==> Login(st, u.email, password, checkPassword) == InvalidCredentials
    ensures checkPassword(u.passwordHash, password) && u.status != Active
            ==> Login(st, u.email, password, checkPassword) == InactiveAccount
    ensures checkPassword(u.passwordHash, password) && u.status == Active
            ==> Login(st, u.email, password, checkPassword)
                == LoggedIn(Session(u.id, u.role, u.firstName + " " + u.lastName))
  {
    UserByEmailUnique(st.users, u);
  }

  /** Registration never creates a second account for an address. */
  lemma RegisterKeepsEmailsUnique(st: Store, form: RegistrationForm, passwordHash: string, now: Time)
    requires EmailsUnique(st.users)
    ensures EmailsUnique(Register(st, form, passwordHash, now).store.users)
  {
    var r := Register(st, form, passwordHash, now);
    if r.outcome.Registered? {
      var us := r.store.users;
      forall i, j | 0 <= i < j < |us| ensures us[i].email != us[j].email {
        if j == |st.users| {
          assert us[i] == st.users[i];
          assert us[i] in st.users;
        } else {
          assert us[i] == st.users[i] && us[j] == st.users[j];
        }
      }
    }
  }

  /** Registering the same address twice: the second attempt is refused as a
      duplicate and creates no row. */
  lemma RegisterTwice(st: Store, form: RegistrationForm, h1: string, h2: string, t1: Time, t2: Time)
    requires Register(st, form, h1, t1).outcome.Registered?
    ensures var st1 := Register(st, form, h1, t1).store;
            Register(st1, form, h2, t2).outcome == DuplicateEmail
            && Register(st1, form, h2, t2).store == st1
  {
    var st1 := Register(st, form, h1, t1).store;
    assert st1.users[|st.users|] in st1.users;
  }

  /** A fresh registration can sign in at once with the same password, as an
      active author, provided the hash check accepts the password it was
      made from. */
  lemma RegisterThenLogin(st: Store, form: RegistrationForm, passwordHash: string, now: Time,
                          checkPassword: (string, string) -> bool)
    requires EmailsUnique(st.users)
    requires Register(st, form, passwordHash, now).outcome.Registered?
    requires checkPassword(passwordHash, form.password)
    ensures var r := Register(st, form, passwordHash, now);
            Login(r.store, form.email, form.password, checkPassword)
            == LoggedIn(Session(r.outcome.userId, Author, form.firstName + " " + form.lastName))
  {
    var r := Register(st, form, passwordHash, now);
    RegisterKeepsEmailsUnique(st, form, passwordHash, now);
    var u := r.store.users[|st.users|];
    assert u in r.store.users;
    LoginDecision(r.store, u, form.password, checkPassword);
  }
}

=== FILE: pytext.dfy ===
/** The handful of Python `str` operations the application relies on:
    `str.isspace`/`str.strip()`, `str.split(sep)`, `sep.join(parts)`,
    `str.lower()` (on ASCII letters) and the position of the last separator
    that `str.rsplit(sep, 1)` splits at. */
module PyText {
  import opened Common

  /** Python's whitespace characters (`str.isspace`), the set `str.strip()`
      with no argument removes. */
  predicate IsSpace(c: char) {
    || c == ' ' || c == '\t' || c == '\n' || c == '\r'
    || c == '\U{000B}' || c == '\U{000C}'
    || ('\U{001C}' <= c <= '\U{001F}')
    || c == '\U{0085}' || c == '\U{00A0}' || c == '\U{1680}'
    || ('\U{2000}' <= c <= '\U{200A}')
    || c == '\U{2028}' || c == '\U{2029}' || c == '\U{202F}'
    || c == '\U{205F}' || c == '\U{3000}'
  }

  /** A string that `strip()` leaves alone: no whitespace at either end. */
  predicate IsStripped(s: string) {
    s == [] || (!IsSpace(s[0]) && !IsSpace(s[|s| - 1]))
  }

  /** Every character of `s[lo..hi]` is whitespace. */
  predicate SpaceBetween(s: string, lo: nat, hi: nat)
    requires lo <= hi <= |s|
  {
    forall k :: lo <= k < hi ==> IsSpace(s[k])
  }

  /** The first index at or after `i` that is not whitespace (or `|s|`). */
  function SkipForward(s: string, i: nat): (k: nat)
    requires i <= |s|
    ensures i <= k <= |s|
    ensures SpaceBetween(s, i, k)
    ensures k < |s| ==> !IsSpace(s[k])
    decreases |s| - i
  {
    if i < |s| && IsSpace(s[i]) then SkipForward(s, i + 1) else i
  }

  /** The smallest `k` in `lo..j` such that `s[k..j]` is all whitespace. */
  function SkipBackward(s: string, lo: nat, j: nat): (k: nat)
    requires lo <= j <= |s|
    ensures lo <= k <= j
    ensures SpaceBetween(s, k, j)
    ensures k > lo ==> !IsSpace(s[k - 1])
    decreases j - lo
  {
    if lo < j && IsSpace(s[j - 1]) then SkipBackward(s, lo, j - 1) else j
  }

  /** `s.strip()`: the contiguous middle of `s` between a whitespace-only
      prefix and a whitespace-only suffix, itself without whitespace at its
      ends; empty exactly when `s` is all whitespace. */
  function Strip(s: string): (r: string)
    ensures IsStripped(r)
    ensures exists i, j :: 0 <= i <= j <= |s| && r == s[i..j]
                           && SpaceBetween(s, 0, i) && SpaceBetween(s, j, |s|)
    ensures r == [] <==> SpaceBetween(s, 0, |s|)
    ensures forall c :: c in r ==> c in s
  {
    var i := SkipForward(s, 0);
    var j := SkipBackward(s, i, |s|);
    assert Between(s) == s[i..j];
    assert j > i ==> s[i..j][0] == s[i];
    assert forall c :: c in s[i..j] ==> c in s by {
      forall c | c in s[i..j] ensures c in s {
        var k :| i <= k < j && s[k] == c;
      }
    }
    Between(s)
  }

  /** The text between leading and trailing whitespace. */
  function Between(s: string): string {
    var i := SkipForward(s, 0);
    s[i..SkipBackward(s, i, |s|)]
  }

  /** Stripping an already stripped string changes nothing. */
  lemma StripStripped(e: string)
    requires IsStripped(e)
    ensures Strip(e) == e
  {
    if e != [] {
      assert SkipForward(e, 0) == 0;
      assert SkipBackward(e, 0, |e|) == |e|;
    }
  }

  /** Skipping whitespace in `c + p` from position `k + 1` lands one past
      where skipping in `p` from `k` lands. */
  lemma {:induction false} SkipForwardShift(c: char, p: string, k: nat)
    requires k <= |p|
    ensures SkipForward([c] + p, k + 1) == SkipForward(p, k) + 1
    decreases |p| - k
  {
    var s := [c] + p;
    if k < |p| {
      assert s[k + 1] == p[k];
      if IsSpace(p[k]) {
        SkipForwardShift(c, p, k + 1);
      }
    }
  }

  lemma {:induction false} SkipBackwardShift(c: char, p: string, lo: nat, j: nat)
    requires lo <= j <= |p|
    ensures SkipBackward([c] + p, lo + 1, j + 1) == SkipBackward(p, lo, j) + 1
    decreases j - lo
  {
    var s := [c] + p;
    if lo < j {
      assert s[j] == p[j - 1];
      if IsSpace(p[j - 1]) {
        SkipBackwardShift(c, p, lo, j - 1);
      }
    }
  }

  /** Leading whitespace is irrelevant to `strip()`: `(" " + p).strip() == p.strip()`. */
  lemma StripLeadingSpace(p: string)
    ensures Strip(" " + p) == Strip(p)
  {
    BetweenLeadingSpace(p);
  }

  lemma BetweenLeadingSpace(p: string)
    ensures Between(" " + p) == Between(p)
  {
    var i := SkipForward(p, 0);
    var j := SkipBackward(p, i, |p|);
    ShiftedBounds(p, i, j);
    SliceShift(' ', p, i, j);
  }

  lemma SliceShift(c: char, p: string, i: nat, j: nat)
    requires i <= j <= |p|
    ensures ([c] + p)[i + 1..j + 1] == p[i..j]
  {
  }

  lemma ShiftedBounds(p: string, i: nat, j: nat)
    requires i == SkipForward(p, 0) && j == SkipBackward(p, i, |p|)
    ensures SkipForward([' '] + p, 0) == i + 1
    ensures SkipBackward([' '] + p, i + 1, |p| + 1) == j + 1
  {
    var s := [' '] + p;
    assert IsSpace(s[0]);
    SkipForwardShift(' ', p, 0);
    SkipBackwardShift(' ', p, i, |p|);
  }

  /** `s.split(sep)` for a one-character separator: the pieces between
      separators, in order; always at least one piece, none holding `sep`,
      and joining them back with `sep` gives `s`. */
  function Split(s: string, sep: char): (r: seq<string>)
    ensures |r| >= 1
    ensures forall i :: 0 <= i < |r| ==> sep !in r[i]
    ensures Join([sep], r) == s
    decreases |s|
  {
    if s == [] then [[]]
    else
      var rest := Split(s[1..], sep);
      if s[0] == sep then
        assert [sep] + Join([sep], rest) == s;
        [[]] + rest
      else
        JoinPrepend([sep], [s[0]], rest);
        assert [s[0]] + Join([sep], rest) == s;
        [[s[0]] + rest[0]] + rest[1..]
  }

  /** `sep.join(parts)`. */
  function Join(sep: string, parts: seq<string>): string
    decreases |parts|
  {
    if |parts| == 0 then []
    else if |parts| == 1 then parts[0]
    else parts[0] + sep + Join(sep, parts[1..])
  }

  /** Text glued to the front of the first piece ends up at the front of the join. */
  lemma JoinPrepend(sep: string, x: string, parts: seq<string>)
    requires |parts| >= 1
    ensures Join(sep, [x + parts[0]] + parts[1..]) == x + Join(sep, parts)
  {
    var q := [x + parts[0]] + parts[1..];
    assert q[1..] == parts[1..];
  }

  /** Joining with a separator character is injective on separator-free pieces:
      the separators mark exactly where the pieces end. */
  lemma {:induction false} JoinInjective(sep: char, p: seq<string>, q: seq<string>)
    requires |p| >= 1 && |q| >= 1
    requires forall i :: 0 <= i < |p| ==> sep !in p[i]
    requires forall i :: 0 <= i < |q| ==> sep !in q[i]
    requires Join([sep], p) == Join([sep], q)
    ensures p == q
    decreases |p|
  {
    var s := Join([sep], p);
    if |p| > 1 && |q| > 1 {
      var a, b := p[0], q[0];
      SeparatorEndsPiece(sep, a, Join([sep], p[1..]), b, Join([sep], q[1..]));
      assert a == s[..|a|] == b;
      assert Join([sep], p[1..]) == s[|a| + 1..] == Join([sep], q[1..]);
      JoinInjective(sep, p[1..], q[1..]);
      assert p == [a] + p[1..];
      assert q == [b] + q[1..];
    }
  }

  /** Joining two non-empty lists is joining each and gluing with `sep`. */
  lemma {:induction false} JoinConcat(sep: string, p: seq<string>, q: seq<string>)
    requires |p| >= 1 && |q| >= 1
    ensures Join(sep, p + q) == Join(sep, p) + sep + Join(sep, q)
    decreases |p|
  {
    if |p| == 1 {
      assert (p + q)[1..] == q;
    } else {
      JoinConcat(sep, p[1..], q);
      assert (p + q)[1..] == p[1..] + q;
    }
  }

  /** Splitting distributes over a separator: `(a + sep + b).split(sep)` is
      `a.split(sep) + b.split(sep)`. */
  lemma SplitConcat(sep: char, a: string, b: string)
    ensures Split(a + [sep] + b, sep) == Split(a, sep) + Split(b, sep)
  {
    var p, q := Split(a, sep), Split(b, sep);
    JoinConcat([sep], p, q);
    SplitJoin(sep, p + q);
  }

  /** A string without the separator splits into itself alone. */
  lemma SplitWithoutSeparator(sep: char, s: string)
    requires sep !in s
    ensures Split(s, sep) == [s]
  {
    SplitJoin(sep, [s]);
  }

  /** The first separator of `piece + sep + rest` sits right after `piece`. */
  lemma FirstSeparator(sep: char, piece: string, rest: string)
    requires sep !in piece
    ensures (piece + [sep] + rest)[|piece|] == sep
    ensures forall k :: 0 <= k < |piece| ==> (piece + [sep] + rest)[k] != sep
  {
  }

  lemma SeparatorEndsPiece(sep: char, a: string, x: string, b: string, y: string)
    requires sep !in a && sep !in b
    requires a + [sep] + x == b + [sep] + y
    ensures |a| == |b|
  {
    FirstSeparator(sep, a, x);
    FirstSeparator(sep, b, y);
  }

  /** `split` undoes `join`: splitting the join of separator-free pieces gives
      the pieces back. */
  lemma SplitJoin(sep: char, parts: seq<string>)
    requires |parts| >= 1
    requires forall i :: 0 <= i < |parts| ==> sep !in parts[i]
    ensures Split(Join([sep], parts), sep) == parts
  {
    var s := Join([sep], parts);
    JoinInjective(sep, Split(s, sep), parts);
  }

  /** `[y for x in xs for y in f(x)]`: the lists `f` gives for the
      elements, concatenated in order. */
  function ConcatMap<T, U>(xs: seq<T>, f: T -> seq<U>): seq<U>
    decreases |xs|
  {
    if xs == [] then [] else f(xs[0]) + ConcatMap(xs[1..], f)
  }

  /** Mapping over a concatenation concatenates the results. */
  lemma {:induction false} ConcatMapConcat<T, U>(p: seq<T>, q: seq<T>, f: T -> seq<U>)
    ensures ConcatMap(p + q, f) == ConcatMap(p, f) + ConcatMap(q, f)
    decreases |p|
  {
    if p == [] {
      assert p + q == q;
    } else {
      assert (p + q)[0] == p[0];
      assert (p + q)[1..] == p[1..] + q;
      ConcatMapConcat(p[1..], q, f);
    }
  }

  /** `c.lower()` on ASCII letters. */
  function LowerChar(c: char): (r: char)
    ensures 'A' <= c <= 'Z' ==> r as int == c as int + 32
    ensures !('A' <= c <= 'Z') ==> r == c
    ensures !('A' <= r <= 'Z')
  {
    if 'A' <= c <= 'Z' then (c as int + 32) as char else c
  }

  function Lower(s: string): string {
    seq(|s|, i requires 0 <= i < |s| => LowerChar(s[i]))
  }

  /** The index of the last occurrence of `c` in `s` (`str.rfind`, with
      `None` for -1): the point where `rsplit(c, 1)` cuts. */
  function LastIndexOf(s: string, c: char): (r: Option<nat>)
    ensures r.None? <==> c !in s
    ensures r.Some? ==> r.value < |s| && s[r.value] == c && c !in s[r.value + 1..]
    decreases |s|
  {
    if s == [] then None
    else if s[|s| - 1] == c then Some(|s| - 1)
    else
      var r := LastIndexOf(s[..|s| - 1], c);
      assert s == s[..|s| - 1] + [s[|s| - 1]];
      if r.Some? then
        assert s[r.value + 1..] == s[..|s| - 1][r.value + 1..] + [s[|s| - 1]];
        r
      else r
  }
}

=== FILE: query.dfy ===
/** The three query clauses the listings use, over sequences of rows:
    `WHERE` (Filter), `ORDER BY key DESC` (SortDesc) and `LIMIT n` (Limit).
    SQLite leaves the order of rows with equal keys open, so the sort is
    specified only by being ordered and a permutation of its input. */
module Query {
  import opened Common

  /** `WHERE p`: the rows satisfying `p`, in their original order. */
  function Filter<T(!new)>(rows: seq<T>, p: T -> bool): (r: seq<T>)
    ensures forall x :: x in r <==> x in rows && p(x)
    ensures forall i :: 0 <= i < |r| ==> p(r[i])
    ensures multiset(r) <= multiset(rows)
    ensures |r| <= |rows|
  {
    if rows == [] then []
    else
      assert rows == [rows[0]] + rows[1..];
      (if p(rows[0]) then [rows[0]] else []) + Filter(rows[1..], p)
  }

  /** `WHERE p` keeps every satisfying row as often as it occurs, and no other. */
  lemma {:induction false} FilterCount<T(!new)>(rows: seq<T>, p: T -> bool)
    ensures forall x :: multiset(Filter(rows, p))[x] == if p(x) then multiset(rows)[x] else 0
    decreases |rows|
  {
    if rows != [] {
      FilterCount(rows[1..], p);
      assert rows == [rows[0]] + rows[1..];
      assert multiset(rows) == multiset([rows[0]]) + multiset(rows[1..]);
    }
  }

  /** Filtering an appended row: it is kept exactly when it satisfies `p`. */
  lemma {:induction false} FilterAppend<T(!new)>(rows: seq<T>, x: T, p: T -> bool)
    ensures Filter(rows + [x], p) == Filter(rows, p) + (if p(x) then [x] else [])
    decreases |rows|
  {
    if rows == [] {
      assert [x][1..] == [];
    } else {
      assert (rows + [x])[1..] == rows[1..] + [x];
      FilterAppend(rows[1..], x, p);
    }
  }

  lemma {:induction false} FilterConcat<T(!new)>(a: seq<T>, b: seq<T>, p: T -> bool)
    ensures Filter(a + b, p) == Filter(a, p) + Filter(b, p)
    decreases |a|
  {
    if a == [] {
      assert a + b == b;
    } else {
      assert (a + b)[0] == a[0];
      assert (a + b)[1..] == a[1..] + b;
      FilterConcat(a[1..], b, p);
    }
  }

  /** A filter every row passes keeps the rows as they are. */
  lemma {:induction false} FilterKeepsAll<T(!new)>(rows: seq<T>, p: T -> bool)
    requires forall i :: 0 <= i < |rows| ==> p(rows[i])
    ensures Filter(rows, p) == rows
    decreases |rows|
  {
    if rows != [] {
      FilterKeepsAll(rows[1..], p);
    }
  }

  /** A filter no row passes yields nothing. */
  lemma {:induction false} FilterDropsAll<T(!new)>(rows: seq<T>, p: T -> bool)
    requires forall i :: 0 <= i < |rows| ==> !p(rows[i])
    ensures Filter(rows, p) == []
    decreases |rows|
  {
    if rows != [] {
      FilterDropsAll(rows[1..], p);
    }
  }

  /** Filtering twice where the second condition implies the first is
      filtering once by the second. */
  lemma {:induction false} FilterTwice<T(!new)>(rows: seq<T>, p: T -> bool, q: T -> bool)
    requires forall x :: q(x) ==> p(x)
    ensures Filter(Filter(rows, p), q) == Filter(rows, q)
    decreases |rows|
  {
    if rows != [] {
      var head: seq<T> := if p(rows[0]) then [rows[0]] else [];
      assert Filter(rows, p) == head + Filter(rows[1..], p);
      FilterConcat(head, Filter(rows[1..], p), q);
      FilterTwice(rows[1..], p, q);
      assert Filter(head, q) == (if q(rows[0]) then [rows[0]] else []) by {
        if p(rows[0]) {
          assert head[1..] == [];
        }
      }
    }
  }

  /** Filtering twice by exclusive conditions yields nothing. */
  lemma {:induction false} FilterExclusive<T(!new)>(rows: seq<T>, p: T -> bool, q: T -> bool)
    requires forall x :: !(p(x) && q(x))
    ensures Filter(Filter(rows, p), q) == []
  {
    FilterDropsAll(Filter(rows, p), q);
  }

  /** Rows ordered by `key`, largest first. */
  predicate SortedDesc<T>(rows: seq<T>, key: T -> int) {
    forall i, j :: 0 <= i < j < |rows| ==> key(rows[i]) >= key(rows[j])
  }

  function Insert<T>(x: T, rows: seq<T>, key: T -> int): (r: seq<T>)
    requires SortedDesc(rows, key)
    ensures SortedDesc(r, key)
    ensures multiset(r) == multiset(rows) + multiset{x}
    ensures forall k :: 0 <= k < |r| ==> r[k] == x || r[k] in rows
    ensures |r| == |rows| + 1
  {
    if rows == [] || key(x) >= key(rows[0]) then
      [x] + rows
    else
      var tail := Insert(x, rows[1..], key);
      assert rows == [rows[0]] + rows[1..];
      InsertBelowHead(x, rows, tail, key);
      [rows[0]] + tail
  }

  lemma InsertBelowHead<T>(x: T, rows: seq<T>, tail: seq<T>, key: T -> int)
    requires rows != [] && SortedDesc(rows, key) && key(x) < key(rows[0])
    requires SortedDesc(tail, key)
    requires forall k :: 0 <= k < |tail| ==> tail[k] == x || tail[k] in rows[1..]
    ensures SortedDesc([rows[0]] + tail, key)
  {
    var r := [rows[0]] + tail;
    forall i, j | 0 <= i < j < |r| ensures key(r[i]) >= key(r[j]) {
      if i == 0 {
        var t := tail[j - 1];
        if t != x {
          var m :| 0 <= m < |rows[1..]| && rows[1..][m] == t;
          assert rows[m + 1] == t;
        }
      } else {
        assert r[i] == tail[i - 1] && r[j] == tail[j - 1];
      }
    }
  }

  /** `ORDER BY key DESC`: a largest-first ordering of the same rows. */
  function SortDesc<T>(rows: seq<T>, key: T -> int): (r: seq<T>)
    ensures SortedDesc(r, key)
    ensures multiset(r) == multiset(rows)
    ensures |r| == |rows|
  {
    if rows == [] then []
    else
      assert rows == [rows[0]] + rows[1..];
      Insert(rows[0], SortDesc(rows[1..], key), key)
  }

  /** `LIMIT n`. */
  function Limit<T>(rows: seq<T>, n: nat): (r: seq<T>)
    ensures |r| == Min(|rows|, n)
    ensures r == rows[..|r|]
  {
    if |rows| <= n then rows else rows[..n]
  }

  /** `ORDER BY key DESC LIMIT n` keeps the `n` rows with the largest keys:
      the result is ordered, drawn from the input, as long as allowed, and no
      row left out ranks above a row kept. */
  lemma TopRows<T>(rows: seq<T>, key: T -> int, n: nat)
    ensures SortedDesc(Limit(SortDesc(rows, key), n), key)
    ensures multiset(Limit(SortDesc(rows, key), n)) <= multiset(rows)
    ensures |Limit(SortDesc(rows, key), n)| == Min(|rows|, n)
    ensures forall x, y ::
      (x in multiset(rows) - multiset(Limit(SortDesc(rows, key), n)) && y in Limit(SortDesc(rows, key), n))
      ==> key(x) <= key(y)
  {
    var s := SortDesc(rows, key);
    TopOfSorted(rows, s, key, Limit(s, n));
  }

  lemma TopOfSorted<T>(rows: seq<T>, s: seq<T>, key: T -> int, r: seq<T>)
    requires SortedDesc(s, key) && multiset(s) == multiset(rows)
    requires |r| <= |s| && r == s[..|r|]
    ensures SortedDesc(r, key)
    ensures multiset(r) <= multiset(rows)
    ensures forall x, y :: (x in multiset(rows) - multiset(r) && y in r) ==> key(x) <= key(y)
  {
    var m := |r|;
    LeftOut(s, m);
    forall x, y | x in multiset(rows) - multiset(r) && y in r ensures key(x) <= key(y) {
      assert x in multiset(s[m..]);
      PrefixDominates(s, key, m, x, y);
    }
  }

  /** Cutting a list at `m`: the rows past the cut are the rows of the list
      less those before it. */
  lemma LeftOut<T>(s: seq<T>, m: nat)
    requires m <= |s|
    ensures multiset(s) - multiset(s[..m]) == multiset(s[m..])
    ensures multiset(s[..m]) <= multiset(s)
  {
    assert s == s[..m] + s[m..];
  }

  lemma PrefixDominates<T>(s: seq<T>, key: T -> int, m: nat, x: T, y: T)
    requires m <= |s| && SortedDesc(s, key)
    requires x in s[m..] && y in s[..m]
    ensures key(x) <= key(y)
  {
    var a :| m <= a < |s| && s[a] == x;
    var b :| 0 <= b < m && s[b] == y;
  }
}

=== FILE: repository.dfy ===
/** The submission repository of app.py: `submit` (create), `edit_submission`
    (ownership check, field update, co-author replacement) and the edit
    page's pre-filled co-author text. File storage is an opaque producer
    of a `files` row; the database clock is the parameter `now`. */
module Repository {
  import opened Common
  import opened Store
  import opened Query
  import opened Upload
  import opened CoAuthorText

  /** The fields the submission form posts; `coauthors` is the raw text
      field (empty when the form leaves it out). */
  datatype SubmissionForm = SubmissionForm(
    title: string,
    abstractText: string,
    keywords: string,
    language: string,
    sectionId: Option<Id>,
    coauthors: string)

  /** An uploaded file as the request carries it. */
  datatype UploadedFile = UploadedFile(filename: string, mimetype: string)

  function BelongsTo(sid: Id): CoAuthor -> bool {
    (c: CoAuthor) => c.submissionId == sid
  }

  function NotOf(sid: Id): CoAuthor -> bool {
    (c: CoAuthor) => c.submissionId != sid
  }

  /** `SELECT ... FROM coauthors WHERE submissionid = ?`. */
  function RowsOf(rows: seq<CoAuthor>, sid: Id): (r: seq<CoAuthor>)
    ensures forall i :: 0 <= i < |r| ==> r[i].submissionId == sid
    ensures forall c :: c in r <==> c in rows && c.submissionId == sid
    ensures forall c :: multiset(r)[c] == if c.submissionId == sid then multiset(rows)[c] else 0
  {
    FilterCount(rows, BelongsTo(sid));
    Filter(rows, BelongsTo(sid))
  }

  /** The e-mail column of a list of co-author rows. */
  function Emails(rows: seq<CoAuthor>): seq<string> {
    seq(|rows|, i requires 0 <= i < |rows| => rows[i].email)
  }

  /** The rows the insert loop writes: one per address, in order, each
      keeping the raw address and linked to the account holding exactly that
      address, or to no account when nobody holds it. */
  function Resolve(users: seq<User>, sid: Id, emails: seq<string>): (rows: seq<CoAuthor>)
    ensures |rows| == |emails|
    ensures forall i :: 0 <= i < |rows| ==> rows[i].submissionId == sid && rows[i].email == emails[i]
    ensures forall i :: 0 <= i < |rows| ==>
              (rows[i].userId.None? <==> forall u :: u in users ==> u.email != emails[i])
    ensures forall i :: 0 <= i < |rows| && rows[i].userId.Some? ==>
              exists u :: u in users && u.email == emails[i] && u.id == rows[i].userId.value
  {
    seq(|emails|, i requires 0 <= i < |emails| =>
      CoAuthor(sid, match UserByEmail(users, emails[i]) case None => None case Some(u) => Some(u.id), emails[i]))
  }

  /** `DELETE FROM coauthors WHERE submissionid = ?` followed by inserting
      `added`: afterwards the submission's rows are exactly `added`, in
      order, and every other submission's rows are as they were. */
  function ReplaceCoAuthors(rows: seq<CoAuthor>, sid: Id, added: seq<CoAuthor>): (r: seq<CoAuthor>)
    requires forall i :: 0 <= i < |added| ==> added[i].submissionId == sid
    ensures RowsOf(r, sid) == added
    ensures forall other :: other != sid ==> RowsOf(r, other) == RowsOf(rows, other)
  {
    ReplaceRows(rows, sid, added);
    Filter(rows, NotOf(sid)) + added
  }

  lemma ReplaceRows(rows: seq<CoAuthor>, sid: Id, added: seq<CoAuthor>)
    requires forall i :: 0 <= i < |added| ==> added[i].submissionId == sid
    ensures RowsOf(Filter(rows, NotOf(sid)) + added, sid) == added
    ensures forall other :: other != sid ==>
              RowsOf(Filter(rows, NotOf(sid)) + added, other) == RowsOf(rows, other)
  {
    var kept := Filter(rows, NotOf(sid));
    FilterConcat(kept, added, BelongsTo(sid));
    FilterExclusive(rows, NotOf(sid), BelongsTo(sid));
    FilterKeepsAll(added, BelongsTo(sid));
    forall other | other != sid ensures RowsOf(kept + added, other) == RowsOf(rows, other) {
      FilterConcat(kept, added, BelongsTo(other));
      FilterTwice(rows, NotOf(sid), BelongsTo(other));
      FilterDropsAll(added, BelongsTo(other));
    }
  }

  /** Every stored co-author address is a parsed entry. */
  predicate CoAuthorsWellFormed(rows: seq<CoAuthor>) {
    forall i :: 0 <= i < |rows| ==> IsEntry(rows[i].email)
  }

  /** The submission-form fields a row carries. */
  predicate HasFormFields(s: Submission, form: SubmissionForm) {
    && s.title == form.title && s.abstractText == form.abstractText
    && s.keywords == form.keywords && s.language == form.language
    && s.sectionId == form.sectionId
  }

  datatype Created = Created(store: Store, submissionId: Id)

  /** The `files` row for an accepted upload. */
  function StoreFile(st: Store, caller: Id, file: UploadedFile,
                     secureFilename: string -> string, now: Time): (r: (Store, Id))
    ensures r.0.files == st.files + [FileRow(r.1, secureFilename(file.filename), file.mimetype, caller, now)]
    ensures forall f :: f in st.files ==> f.id < r.1
    ensures r.0.users == st.users && r.0.submissions == st.submissions
    ensures r.0.coauthors == st.coauthors && r.0.issues == st.issues
  {
    var id := NextId(st.files, FileId);
    assert forall f :: f in st.files ==> f.id < id by {
      forall f | f in st.files ensures f.id < id {
        var i :| 0 <= i < |st.files| && st.files[i] == f;
        assert FileId(st.files[i]) < id;
      }
    }
    (st.(files := st.files + [FileRow(id, secureFilename(file.filename), file.mimetype, caller, now)]), id)
  }

  /** The upload step of `submit`: a `files` row only for a file whose
      name `allowed_file` accepts. */
  function AttachFile(st: Store, caller: Id, file: Option<UploadedFile>,
                      secureFilename: string -> string, now: Time): (r: (Store, Option<Id>))
    ensures r.1.Some? <==> file.Some? && AllowedFile(file.value.filename)
    ensures r.1.None? ==> r.0 == st
    ensures r.1.Some? ==>
              && (forall f :: f in st.files ==> f.id < r.1.value)
              && r.0.files == st.files + [FileRow(r.1.value, secureFilename(file.value.filename),
                                                  file.value.mimetype, caller, now)]
    ensures r.0.users == st.users && r.0.submissions == st.submissions
    ensures r.0.coauthors == st.coauthors && r.0.issues == st.issues
  {
    if file.Some? && AllowedFile(file.value.filename) then
      var stored := StoreFile(st, caller, file.value, secureFilename, now);
      (stored.0, Some(stored.1))
    else (st, None)
  }

  /** `submit` (POST) by the signed-in user `caller`. `secureFilename` is
      the library's filename sanitiser. */
  function Create(st: Store, caller: Id, form: SubmissionForm, file: Option<UploadedFile>,
                  secureFilename: string -> string, now: Time): (r: Created)
    ensures |r.store.submissions| == |st.submissions| + 1
    ensures r.store.submissions[..|st.submissions|] == st.submissions
    ensures forall t :: t in st.submissions ==> t.id < r.submissionId
    ensures var s := r.store.submissions[|st.submissions|];
            && s.id == r.submissionId
            && s.authorId == caller
            && s.status == Submitted && s.stage == SubmissionStage
            && s.issueId == None && s.publishedDate == None
            && s.submissionDate == now && s.updatedAt == None
            && HasFormFields(s, form)
            && (s.fileId.Some? <==> file.Some? && AllowedFile(file.value.filename))
            && (s.fileId.None? ==> r.store.files == st.files)
            && (s.fileId.Some? ==>
                  && (forall f :: f in st.files ==> f.id < s.fileId.value)
                  && r.store.files == st.files + [FileRow(s.fileId.value, secureFilename(file.value.filename),
                                                          file.value.mimetype, caller, now)])
    ensures r.store.users == st.users && r.store.issues == st.issues
    ensures RowsOf(r.store.coauthors, r.submissionId)
            == Resolve(st.users, r.submissionId, ParseEmails(form.coauthors))
    ensures forall other :: other != r.submissionId ==>
              RowsOf(r.store.coauthors, other) == RowsOf(st.coauthors, other)
    ensures CoAuthorsWellFormed(st.coauthors) ==> CoAuthorsWellFormed(r.store.coauthors)
  {
    var (st1, fileId) := AttachFile(st, caller, file, secureFilename, now);
    var sid := NextId(st.submissions, SubmissionId);
    assert forall t :: t in st.submissions ==> t.id < sid by {
      forall t | t in st.submissions ensures t.id < sid {
        var i :| 0 <= i < |st.submissions| && st.submissions[i] == t;
        assert SubmissionId(st.submissions[i]) < sid;
      }
    }
    var s := Submission(sid, form.title, form.abstractText, form.keywords, form.language,
                        form.sectionId, caller, Submitted, SubmissionStage, fileId, None,
                        now, None, None);
    assert (st.submissions + [s])[..|st.submissions|] == st.submissions;
    var added := Resolve(st.users, sid, ParseEmails(form.coauthors));
    var rows := ReplaceCoAuthors(st.coauthors, sid, added);
    ReplacePreservesWellFormed(st.coauthors, sid, added);
    Created(st1.(submissions := st.submissions + [s], coauthors := rows), sid)
  }

  lemma ReplacePreservesWellFormed(rows: seq<CoAuthor>, sid: Id, added: seq<CoAuthor>)
    requires forall i :: 0 <= i < |added| ==> added[i].submissionId == sid && IsEntry(added[i].email)
    ensures CoAuthorsWellFormed(rows) ==> CoAuthorsWellFormed(ReplaceCoAuthors(rows, sid, added))
  {
    var kept := Filter(rows, NotOf(sid));
    assert ReplaceCoAuthors(rows, sid, added) == kept + added;
    if CoAuthorsWellFormed(rows) {
      forall i | 0 <= i < |kept| ensures IsEntry(kept[i].email) {
        assert kept[i] in rows;
      }
    }
  }

  datatype EditOutcome = Updated | NotFoundOrForbidden

  datatype EditResponse = EditResponse(store: Store, outcome: EditOutcome)

  /** The guard of `edit_submission`: the submission exists and the caller
      is its author. */
  predicate MayEdit(st: Store, caller: Id, sid: Id)
    ensures MayEdit(st, caller, sid) <==>
      exists i :: 0 <= i < |st.submissions| && st.submissions[i].id == sid
                  && st.submissions[i].authorId == caller
                  && forall j :: 0 <= j < i ==> st.submissions[j].id != sid
  {
    FirstRowWithId(st.submissions, sid);
    match SubmissionById(st.submissions, sid)
    case None => false
    case Some(s) => s.authorId == caller
  }

  /** The row the lookup by id finds is the first row carrying the id. */
  lemma FirstRowWithId(subs: seq<Submission>, sid: Id)
    ensures forall i :: 0 <= i < |subs| && subs[i].id == sid && (forall j :: 0 <= j < i ==> subs[j].id != sid)
                        ==> SubmissionById(subs, sid) == Some(subs[i])
    ensures SubmissionById(subs, sid).Some? ==>
              exists i :: 0 <= i < |subs| && subs[i] == SubmissionById(subs, sid).value
                          && forall j :: 0 <= j < i ==> subs[j].id != sid
  {
    forall i | 0 <= i < |subs| && subs[i].id == sid && (forall j :: 0 <= j < i ==> subs[j].id != sid)
      ensures SubmissionById(subs, sid) == Some(subs[i])
    {
      SubmissionByIdFirst(subs, sid, i);
    }
    if SubmissionById(subs, sid).Some? {
      var i := SubmissionByIdAt(subs, sid);
    }
  }

  /** What the `UPDATE` does to a matching row: the form's fields and
      `updatedat` change; id, author, status, stage, file, issue and dates
      stay. */
  predicate EditedFrom(before: Submission, after: Submission, form: SubmissionForm, now: Time) {
    && HasFormFields(after, form)
    && after.updatedAt == Some(now)
    && after.id == before.id
    && after.authorId == before.authorId
    && after.status == before.status && after.stage == before.stage
    && after.fileId == before.fileId && after.issueId == before.issueId
    && after.submissionDate == before.submissionDate
    && after.publishedDate == before.publishedDate
  }

  /** `edit_submission` (POST) by the signed-in user `caller`. */
  function Edit(st: Store, caller: Id, sid: Id, form: SubmissionForm, now: Time): (r: EditResponse)
    ensures r.outcome == NotFoundOrForbidden <==>
            (forall s :: s in st.submissions ==> s.id != sid)
            || SubmissionById(st.submissions, sid).value.authorId != caller
    ensures r.outcome == NotFoundOrForbidden ==> r.store == st
    ensures r.outcome == Updated ==>
            && |r.store.submissions| == |st.submissions|
            && (forall i :: 0 <= i < |st.submissions| && st.submissions[i].id != sid
                  ==> r.store.submissions[i] == st.submissions[i])
            && (forall i :: 0 <= i < |st.submissions| && st.submissions[i].id == sid
                  ==> EditedFrom(st.submissions[i], r.store.submissions[i], form, now))
            && r.store.users == st.users && r.store.files == st.files && r.store.issues == st.issues
            && RowsOf(r.store.coauthors, sid) == Resolve(st.users, sid, ParseEmails(form.coauthors))
            && (forall other :: other != sid ==>
                  RowsOf(r.store.coauthors, other) == RowsOf(st.coauthors, other))
    ensures CoAuthorsWellFormed(st.coauthors) ==> CoAuthorsWellFormed(r.store.coauthors)
  {
    if !MayEdit(st, caller, sid) then EditResponse(st, NotFoundOrForbidden)
    else
      var added := Resolve(st.users, sid, ParseEmails(form.coauthors));
      ReplacePreservesWellFormed(st.coauthors, sid, added);
      var rows := ReplaceCoAuthors(st.coauthors, sid, added);
      EditResponse(st.(submissions := UpdateRows(st.submissions, sid, form, now), coauthors := rows), Updated)
  }

  /** `UPDATE submissions SET ... WHERE id = ?`: the rows with that id are
      edited, the others kept, in place. */
  function UpdateRows(subs: seq<Submission>, sid: Id, form: SubmissionForm, now: Time): (r: seq<Submission>)
    ensures |r| == |subs|
    ensures forall i :: 0 <= i < |subs| && subs[i].id != sid ==> r[i] == subs[i]
    ensures forall i :: 0 <= i < |subs| && subs[i].id == sid ==> EditedFrom(subs[i], r[i], form, now)
  {
    seq(|subs|, i requires 0 <= i < |subs| =>
      var s := subs[i];
      if s.id == sid then
        s.(title := form.title, abstractText := form.abstractText, keywords := form.keywords,
           language := form.language, sectionId := form.sectionId, updatedAt := Some(now))
      else s)
  }

  /** `edit_submission` (GET): for the owner, the co-author field pre-filled
      with the stored addresses joined by `", "`; nothing for anyone else. */
  function EditFormCoAuthors(st: Store, caller: Id, sid: Id): (r: Option<string>)
    ensures r.Some? <==> MayEdit(st, caller, sid)
    ensures r.Some? && CoAuthorsWellFormed(st.coauthors) ==>
            ParseEmails(r.value) == Emails(RowsOf(st.coauthors, sid))
  {
    if !MayEdit(st, caller, sid) then None
    else
      var rows := RowsOf(st.coauthors, sid);
      StoredListRoundTrip(st.coauthors, sid);
      Some(JoinEmails(Emails(rows)))
  }

  lemma StoredListRoundTrip(all: seq<CoAuthor>, sid: Id)
    ensures CoAuthorsWellFormed(all) ==>
            ParseEmails(JoinEmails(Emails(RowsOf(all, sid)))) == Emails(RowsOf(all, sid))
  {
    var rows := RowsOf(all, sid);
    if CoAuthorsWellFormed(all) {
      assert forall i :: 0 <= i < |rows| ==> rows[i] in all;
      ParseJoinEmails(Emails(rows));
    }
  }

  /** The addresses of resolved rows are the addresses resolved. */
  lemma EmailsOfResolve(users: seq<User>, sid: Id, emails: seq<string>)
    ensures Emails(Resolve(users, sid, emails)) == emails
  {
  }

  /** Create then open the edit page: the owner sees a co-author field that
      parses to the same list the submission form's field parsed to. */
  lemma CreateThenEditForm(st: Store, caller: Id, form: SubmissionForm, file: Option<UploadedFile>,
                           secureFilename: string -> string, now: Time)
    requires CoAuthorsWellFormed(st.coauthors)
    ensures var r := Create(st, caller, form, file, secureFilename, now);
            var text := EditFormCoAuthors(r.store, caller, r.submissionId);
            text.Some? && ParseEmails(text.value) == ParseEmails(form.coauthors)
  {
    var r := Create(st, caller, form, file, secureFilename, now);
    var s := r.store.submissions[|st.submissions|];
    assert r.store.submissions == st.submissions + [s];
    SubmissionByFreshId(st.submissions, s);
    EmailsOfResolve(st.users, r.submissionId, ParseEmails(form.coauthors));
  }

  /** Edit then reopen the edit page: the co-author field parses to the list
      the posted field parsed to; an empty field leaves no co-authors. */
  lemma EditThenEditForm(st: Store, caller: Id, sid: Id, form: SubmissionForm, now: Time)
    requires CoAuthorsWellFormed(st.coauthors)
    requires MayEdit(st, caller, sid)
    ensures var r := Edit(st, caller, sid, form, now);
            var text := EditFormCoAuthors(r.store, caller, sid);
            text.Some? && ParseEmails(text.value) == ParseEmails(form.coauthors)
    ensures form.coauthors == "" ==> RowsOf(Edit(st, caller, sid, form, now).store.coauthors, sid) == []
  {
    var r := Edit(st, caller, sid, form, now);
    var s := SubmissionById(st.submissions, sid).value;
    EditKeepsOwner(st, caller, sid, form, now);
    EmailsOfResolve(st.users, sid, ParseEmails(form.coauthors));
    if form.coauthors == "" {
      ParseBlank("");
    }
  }

  /** An edit keeps who may edit: the edited submission still has the same
      owner afterwards. */
  lemma EditKeepsOwner(st: Store, caller: Id, sid: Id, form: SubmissionForm, now: Time)
    requires MayEdit(st, caller, sid)
    ensures MayEdit(Edit(st, caller, sid, form, now).store, caller, sid)
  {
    var before := st.submissions;
    var after := Edit(st, caller, sid, form, now).store.submissions;
    var i := SubmissionByIdAt(before, sid);
    assert EditedFrom(before[i], after[i], form, now);
    assert forall j :: 0 <= j < i ==> after[j] == before[j];
    SubmissionByIdFirst(after, sid, i);
  }
}

=== FILE: store.dfy ===
/** The relations app.py reads and writes (`users`, `submissions`,
    `coauthors`, `files`, `issues`), held in memory. Each relation is a
    sequence in row-id order; a query that fetches `one=True` without an
    `ORDER BY` sees the first matching row of that order. */
module Store {
  import opened Common

  /** Row ids (`INTEGER PRIMARY KEY`). */
  type Id = nat

  /** A `datetime('now')` value. The text form `YYYY-MM-DD HH:MM:SS` sorts
      like the instant it names, so an ordinal stands in for it. */
  type Time = nat

  datatype Role = Author | Editor | Admin

  datatype AccountStatus = Active | Inactive

  datatype User = User(
    id: Id,
    email: string,
    passwordHash: string,
    firstName: string,
    lastName: string,
    role: Role,
    affiliation: string,
    country: string,
    status: AccountStatus,
    emailVerified: bool,
    createdAt: Time,
    updatedAt: Time)

  datatype SubmissionStatus = Submitted | UnderReview | Accepted | Rejected | Published

  datatype Stage = SubmissionStage | ReviewStage | EditingStage | ProductionStage

  datatype Submission = Submission(
    id: Id,
    title: string,
    abstractText: string,
    keywords: string,
    language: string,
    sectionId: Option<Id>,
    authorId: Id,
    status: SubmissionStatus,
    stage: Stage,
    fileId: Option<Id>,
    issueId: Option<Id>,
    submissionDate: Time,
    updatedAt: Option<Time>,
    publishedDate: Option<Time>)

  /** A co-author row: the raw e-mail is always kept, the user link only
      when some registered user has exactly that address. */
  datatype CoAuthor = CoAuthor(submissionId: Id, userId: Option<Id>, email: string)

  /** A `files` row. Where the bytes are stored is not part of the model. */
  datatype FileRow = FileRow(id: Id, filename: string, mimetype: string, uploaderId: Id, createdAt: Time)

  datatype IssueStatus = IssueDraft | IssuePublished

  datatype Issue = Issue(id: Id, volume: int, number: int, year: int, isCurrent: bool, status: IssueStatus)

  datatype Store = Store(
    users: seq<User>,
    submissions: seq<Submission>,
    coauthors: seq<CoAuthor>,
    files: seq<FileRow>,
    issues: seq<Issue>)

  /** The id SQLite gives the next row of a table: one more than the largest
      id present, 1 for an empty table. */
  function NextId<T>(rows: seq<T>, idOf: T -> Id): (r: Id)
    ensures r >= 1
    ensures rows == [] ==> r == 1
    ensures forall i :: 0 <= i < |rows| ==> idOf(rows[i]) < r
    ensures |rows| > 0 ==> exists i :: 0 <= i < |rows| && r == idOf(rows[i]) + 1
  {
    if rows == [] then 1
    else
      var prev := NextId(rows[..|rows| - 1], idOf);
      var last := idOf(rows[|rows| - 1]) + 1;
      assert forall i :: 0 <= i < |rows| - 1 ==> rows[..|rows| - 1][i] == rows[i];
      if last >= prev then last else prev
  }

  function UserId(u: User): Id { u.id }
  function SubmissionId(s: Submission): Id { s.id }
  function FileId(f: FileRow): Id { f.id }

  /** `submissions.id` is a primary key. */
  predicate SubmissionIdsUnique(subs: seq<Submission>) {
    forall i, j :: 0 <= i < j < |subs| ==> subs[i].id != subs[j].id
  }

  /** No two accounts share an e-mail; registration keeps it so. */
  predicate EmailsUnique(users: seq<User>) {
    forall i, j :: 0 <= i < j < |users| ==> users[i].email != users[j].email
  }

  /** `SELECT ... FROM users WHERE email = ?` with `one=True`. */
  function UserByEmail(users: seq<User>, email: string): (r: Option<User>)
    ensures r.None? <==> forall u :: u in users ==> u.email != email
    ensures r.Some? ==> r.value in users && r.value.email == email
  {
    if users == [] then None
    else if users[0].email == email then Some(users[0])
    else UserByEmail(users[1..], email)
  }

  /** `SELECT ... FROM users WHERE id = ?` with `one=True`. */
  function UserById(users: seq<User>, id: Id): (r: Option<User>)
    ensures r.None? <==> forall u :: u in users ==> u.id != id
    ensures r.Some? ==> r.value in users && r.value.id == id
  {
    if users == [] then None
    else if users[0].id == id then Some(users[0])
    else UserById(users[1..], id)
  }

  /** `SELECT * FROM submissions WHERE id = ?` with `one=True`. */
  function SubmissionById(subs: seq<Submission>, id: Id): (r: Option<Submission>)
    ensures r.None? <==> forall s :: s in subs ==> s.id != id
    ensures r.Some? ==> r.value in subs && r.value.id == id
  {
    if subs == [] then None
    else if subs[0].id == id then Some(subs[0])
    else SubmissionById(subs[1..], id)
  }

  /** The lookup by id finds the first row carrying that id. */
  lemma {:induction false} SubmissionByIdAt(subs: seq<Submission>, id: Id) returns (i: nat)
    requires SubmissionById(subs, id).Some?
    ensures i < |subs| && subs[i] == SubmissionById(subs, id).value
    ensures forall j :: 0 <= j < i ==> subs[j].id != id
    decreases |subs|
  {
    if subs[0].id == id {
      i := 0;
    } else {
      var k := SubmissionByIdAt(subs[1..], id);
      i := k + 1;
      assert forall j :: 1 <= j < i ==> subs[j] == subs[1..][j - 1];
    }
  }

  /** Conversely, the first row carrying the id is what the lookup finds. */
  lemma {:induction false} SubmissionByIdFirst(subs: seq<Submission>, id: Id, i: nat)
    requires i < |subs| && subs[i].id == id
    requires forall j :: 0 <= j < i ==> subs[j].id != id
    ensures SubmissionById(subs, id) == Some(subs[i])
    decreases i
  {
    if i > 0 {
      assert forall j :: 0 <= j < i - 1 ==> subs[1..][j] == subs[j + 1];
      SubmissionByIdFirst(subs[1..], id, i - 1);
    }
  }

  /** With unique e-mails the lookup finds the one account holding the address. */
  lemma UserByEmailUnique(users: seq<User>, u: User)
    requires EmailsUnique(users) && u in users
    ensures UserByEmail(users, u.email) == Some(u)
  {
    var r := UserByEmail(users, u.email);
    var i :| 0 <= i < |users| && users[i] == u;
    var j :| 0 <= j < |users| && users[j] == r.value;
    assert i == j;
  }

  /** A row whose id is larger than every earlier one is what the lookup
      by that id finds. */
  lemma SubmissionByFreshId(subs: seq<Submission>, s: Submission)
    requires forall t :: t in subs ==> t.id < s.id
    ensures SubmissionById(subs + [s], s.id) == Some(s)
  {
    if subs != [] {
      assert (subs + [s])[1..] == subs[1..] + [s];
      SubmissionByFreshId(subs[1..], s);
    }
  }
}

=== FILE: upload.dfy ===
/** The upload filter of app.py: `ALLOWED_EXTENSIONS` and `allowed_file`. */
module Upload {
  import opened Common
  import opened PyText

  /** `ALLOWED_EXTENSIONS`. */
  const AllowedExtensions: set<string> := {"pdf", "doc", "docx", "txt"}

  /** `filename.rsplit('.', 1)[1]`: the text after the last dot, when there
      is a dot at all. */
  function Extension(filename: string): (r: Option<string>)
    ensures r.None? <==> '.' !in filename
    ensures r.Some? ==> '.' !in r.value && |r.value| < |filename|
    ensures r.Some? ==> filename == filename[..|filename| - |r.value| - 1] + "." + r.value
  {
    match LastIndexOf(filename, '.')
    case None => None
    case Some(i) =>
      assert filename == filename[..i] + "." + filename[i + 1..];
      Some(filename[i + 1..])
  }

  /** The text after the dot at `i`, lower-cased, is an allowed extension. */
  predicate AllowedAfter(filename: string, i: nat)
    requires i < |filename|
  {
    Lower(filename[i + 1..]) in AllowedExtensions
  }

  /** `allowed_file(filename)`: it accepts a name exactly when the name has
      a dot whose following text holds no further dot and, lower-cased, is
      one of the four allowed extensions. */
  function AllowedFile(filename: string): (r: bool)
    ensures r <==>
      exists i :: 0 <= i < |filename| && filename[i] == '.' && '.' !in filename[i + 1..]
                  && AllowedAfter(filename, i)
  {
    LastDotsAgree(filename);
    ExtensionAfterLastDot(filename);
    match Extension(filename)
    case None => false
    case Some(ext) => Lower(ext) in AllowedExtensions
  }

  /** The extension is the text after a dot that has no dot after it. */
  lemma ExtensionAfterLastDot(filename: string)
    ensures Extension(filename).Some? ==>
      var j := |filename| - |Extension(filename).value| - 1;
      && 0 <= j < |filename| && filename[j] == '.' && '.' !in filename[j + 1..]
      && filename[j + 1..] == Extension(filename).value
  {
    match LastIndexOf(filename, '.')
    case None =>
    case Some(j) =>
  }

  /** Every dot with no dot after it marks the extension. */
  lemma LastDotsAgree(filename: string)
    ensures forall i :: 0 <= i < |filename| && filename[i] == '.' && '.' !in filename[i + 1..]
                        ==> Extension(filename) == Some(filename[i + 1..])
  {
    forall i | 0 <= i < |filename| && filename[i] == '.' && '.' !in filename[i + 1..]
      ensures Extension(filename) == Some(filename[i + 1..])
    {
      LastDotUnique(filename, i);
    }
  }

  /** A dot at `i` with no dot after it is the dot `rsplit` cuts at. */
  lemma LastDotUnique(filename: string, i: nat)
    requires i < |filename| && filename[i] == '.' && '.' !in filename[i + 1..]
    ensures LastIndexOf(filename, '.') == Some(i)
  {
    var j := LastIndexOf(filename, '.');
    assert j.Some?;
    var k := j.value;
    InSuffix(filename, k + 1);
    InSuffix(filename, i + 1);
  }

  lemma InSuffix(s: string, from: nat)
    requires from <= |s|
    ensures forall k :: from <= k < |s| ==> s[k] in s[from..]
  {
    forall k | from <= k < |s| ensures s[k] in s[from..] {
      assert s[from..][k - from] == s[k];
    }
  }

  /** A name without a dot, or with nothing after its last dot, is refused. */
  lemma RefusedNames()
    ensures !AllowedFile("report")
    ensures !AllowedFile("x.")
  {
    assert '.' !in "report";
    LastDotUnique("x.", 1);
    assert Lower("") == "";
  }

  /** Case does not matter and only the last dot counts. */
  lemma UpperCaseMultiDot()
    ensures AllowedFile("A.B.PDF")
  {
    LastDotUnique("A.B.PDF", 3);
    assert Lower("PDF") == "pdf";
  }

  /** A name that is only a dot and an extension is accepted. */
  lemma BareExtension()
    ensures AllowedFile(".txt")
  {
    LastDotUnique(".txt", 0);
    assert Lower("txt") == "txt";
  }

  /** An allowed extension followed by another one is judged by the last. */
  lemma DoubleExtension()
    ensures !AllowedFile("paper.pdf.exe")
  {
    LastDotUnique("paper.pdf.exe", 9);
    assert "paper.pdf.exe"[10..] == "exe";
    assert Lower("exe") == "exe";
    assert "exe" !in AllowedExtensions;
  }
}

=== FILE: views.dfy ===
/** The read paths of app.py: the submission listings of `dashboard` and
    `submissions`, and the public `index` (current issue, recent articles)
    and `article` pages, which show published submissions only. */
module Views {
  import opened Common
  import opened Store
  import opened Query
  import opened Identity
  import opened Repository

  /** `LIMIT` of the staff listing on the dashboard. */
  const DashboardLimit: nat := 20
  /** `LIMIT` of the staff listing on the submissions page. */
  const SubmissionsPageLimit: nat := 50
  /** `LIMIT` of the recent-articles list on the home page. */
  const RecentArticlesLimit: nat := 10

  function SubmittedAt(s: Submission): int {
    s.submissionDate
  }

  function OwnedBy(uid: Id): Submission -> bool {
    (s: Submission) => s.authorId == uid
  }

  /** An author's listing: all and only their own submissions, each as
      often as stored, newest first. */
  function AuthorListing(st: Store, uid: Id): (r: seq<Submission>)
    ensures SortedDesc(r, SubmittedAt)
    ensures multiset(r) == multiset(Filter(st.submissions, OwnedBy(uid)))
    ensures forall s :: multiset(r)[s] == if s.authorId == uid then multiset(st.submissions)[s] else 0
    ensures forall s :: s in r <==> s in st.submissions && s.authorId == uid
  {
    var own := Filter(st.submissions, OwnedBy(uid));
    var r := SortDesc(own, SubmittedAt);
    FilterCount(st.submissions, OwnedBy(uid));
    assert forall s :: s in r <==> s in own by {
      forall s ensures s in r <==> s in own {
        assert s in r <==> s in multiset(r);
        assert s in own <==> s in multiset(own);
      }
    }
    r
  }

  /** Any other role's listing: the newest `limit` submissions of everyone,
      newest first; none left out is newer than one shown. */
  function StaffListing(st: Store, limit: nat): (r: seq<Submission>)
    ensures SortedDesc(r, SubmittedAt)
    ensures multiset(r) <= multiset(st.submissions)
    ensures |r| == Min(|st.submissions|, limit)
    ensures forall x, y :: (x in multiset(st.submissions) - multiset(r) && y in r)
                           ==> x.submissionDate <= y.submissionDate
  {
    TopRows(st.submissions, SubmittedAt, limit);
    Limit(SortDesc(st.submissions, SubmittedAt), limit)
  }

  /** What the listing shown to `session` is, with `limit` the cap for
      roles other than author: newest first; for an author, every one of
      their own submissions as often as stored and nothing else; for any
      other role, the `limit` newest submissions of all authors (all of them
      when there are fewer), none left out newer than one shown. */
  ghost predicate IsListing(st: Store, session: Session, limit: nat, r: seq<Submission>) {
    && SortedDesc(r, SubmittedAt)
    && (session.role == Author ==>
          forall s :: multiset(r)[s] == if s.authorId == session.userId then multiset(st.submissions)[s] else 0)
    && (session.role != Author ==>
          && multiset(r) <= multiset(st.submissions)
          && |r| == Min(|st.submissions|, limit)
          && forall x, y :: (x in multiset(st.submissions) - multiset(r) && y in r)
                            ==> x.submissionDate <= y.submissionDate)
  }

  /** The listing of `dashboard` and `submissions`, chosen by the role the
      session carries. */
  function Listing(st: Store, session: Session, staffLimit: nat): (r: seq<Submission>)
    ensures IsListing(st, session, staffLimit, r)
  {
    if session.role == Author then AuthorListing(st, session.userId)
    else StaffListing(st, staffLimit)
  }

  /** `dashboard`: staff see at most the 20 newest submissions. */
  function Dashboard(st: Store, session: Session): (r: seq<Submission>)
    ensures IsListing(st, session, DashboardLimit, r)
    ensures session.role != Author ==> |r| <= DashboardLimit
  {
    Listing(st, session, DashboardLimit)
  }

  /** `submissions`: staff see at most the 50 newest submissions. */
  function SubmissionsPage(st: Store, session: Session): (r: seq<Submission>)
    ensures IsListing(st, session, SubmissionsPageLimit, r)
    ensures session.role != Author ==> |r| <= SubmissionsPageLimit
  {
    Listing(st, session, SubmissionsPageLimit)
  }

  /** A newly created submission shows up exactly once in its author's
      listing, as submitted, at the submission stage, in no issue. */
  lemma CreateThenListed(st: Store, caller: Id, name: string, form: SubmissionForm,
                         file: Option<UploadedFile>, secureFilename: string -> string,
                         now: Time, limit: nat)
    ensures var r := Create(st, caller, form, file, secureFilename, now);
            var s := r.store.submissions[|st.submissions|];
            && multiset(Listing(r.store, Session(caller, Author, name), limit))[s] == 1
            && s.status == Submitted && s.stage == SubmissionStage && s.issueId == None
  {
    var r := Create(st, caller, form, file, secureFilename, now);
    var s := r.store.submissions[|st.submissions|];
    assert r.store.submissions == st.submissions + [s];
    FilterAppend(st.submissions, s, OwnedBy(caller));
    assert s !in st.submissions;
    assert s !in Filter(st.submissions, OwnedBy(caller));
  }

  /** Creating a submission keeps submission ids unique. */
  lemma CreateKeepsIdsUnique(st: Store, caller: Id, form: SubmissionForm,
                             file: Option<UploadedFile>, secureFilename: string -> string, now: Time)
    requires SubmissionIdsUnique(st.submissions)
    ensures SubmissionIdsUnique(Create(st, caller, form, file, secureFilename, now).store.submissions)
  {
    var r := Create(st, caller, form, file, secureFilename, now);
    var s := r.store.submissions[|st.submissions|];
    assert r.store.submissions == st.submissions + [s];
    AppendFreshKeepsIdsUnique(st.submissions, s);
  }

  lemma AppendFreshKeepsIdsUnique(subs: seq<Submission>, s: Submission)
    requires SubmissionIdsUnique(subs)
    requires forall t :: t in subs ==> t.id < s.id
    ensures SubmissionIdsUnique(subs + [s])
  {
    var all := subs + [s];
    forall i, j | 0 <= i < j < |all| ensures all[i].id != all[j].id {
      assert all[i] == subs[i];
      assert subs[i] in subs;
    }
  }

  /** A home-page row: a published submission with its author's account. */
  datatype ArticleRow = ArticleRow(submission: Submission, author: User)

  /** A row of the public queries: the submission is published and joined
      to the account of its author. */
  predicate IsPublicRow(st: Store, a: ArticleRow) {
    && a.submission in st.submissions
    && a.submission.status == Published
    && a.author in st.users
    && a.author.id == a.submission.authorId
  }

  /** `FROM submissions s JOIN users u ON s.authorid = u.id WHERE
      s.status = 'published'`, in row order. */
  function PublishedArticles(subs: seq<Submission>, users: seq<User>): (r: seq<ArticleRow>)
    ensures forall a :: a in r ==> (a.submission in subs && a.submission.status == Published
                                   && a.author in users && a.author.id == a.submission.authorId)
    ensures forall s :: s in subs && s.status == Published && UserById(users, s.authorId).Some?
                        ==> ArticleRow(s, UserById(users, s.authorId).value) in r
    ensures forall a :: multiset(r)[a] ==
              if a.submission.status == Published && UserById(users, a.submission.authorId) == Some(a.author)
              then multiset(subs)[a.submission] else 0
  {
    if subs == [] then []
    else
      var s := subs[0];
      var head :=
        if s.status != Published then []
        else match UserById(users, s.authorId)
             case None => []
             case Some(u) => [ArticleRow(s, u)];
      var tail := PublishedArticles(subs[1..], users);
      assert forall t :: t in subs ==> t == s || t in subs[1..];
      assert subs == [s] + subs[1..];
      assert multiset(subs) == multiset([s]) + multiset(subs[1..]);
      head + tail
  }

  /** The sort key of `ORDER BY s.publisheddate DESC`; SQLite puts NULL
      below every date, so undated rows come last. */
  function PublishedAt(a: ArticleRow): int {
    match a.submission.publishedDate
    case None => -1
    case Some(t) => t
  }

  /** The home page's recent articles: the ten most recently published
      submissions whose author has an account, newest first. */
  function RecentArticles(st: Store): (r: seq<ArticleRow>)
    ensures |r| <= RecentArticlesLimit
    ensures |r| == Min(|PublishedArticles(st.submissions, st.users)|, RecentArticlesLimit)
    ensures forall a :: a in r ==> IsPublicRow(st, a)
    ensures SortedDesc(r, PublishedAt)
    ensures multiset(r) <= multiset(PublishedArticles(st.submissions, st.users))
    ensures forall x, y :: (x in multiset(PublishedArticles(st.submissions, st.users)) - multiset(r)
                            && y in r) ==> PublishedAt(x) <= PublishedAt(y)
  {
    var all := PublishedArticles(st.submissions, st.users);
    TopRows(all, PublishedAt, RecentArticlesLimit);
    TopArePublic(st, all, Limit(SortDesc(all, PublishedAt), RecentArticlesLimit));
    Limit(SortDesc(all, PublishedAt), RecentArticlesLimit)
  }

  lemma TopArePublic(st: Store, all: seq<ArticleRow>, r: seq<ArticleRow>)
    requires all == PublishedArticles(st.submissions, st.users)
    requires multiset(r) <= multiset(all)
    ensures forall a :: a in r ==> IsPublicRow(st, a)
  {
    forall a | a in r ensures IsPublicRow(st, a) {
      assert a in multiset(r);
      assert a in multiset(all);
    }
  }

  /** `article`: the submission with the given id, only if it is published
      and its author has an account; an unpublished submission is as absent
      as a missing one. */
  function ArticleById(st: Store, id: Id): (r: Option<ArticleRow>)
    ensures r.Some? ==> IsPublicRow(st, r.value) && r.value.submission.id == id
    ensures r.None? <==>
            forall s :: s in st.submissions && s.id == id && s.status == Published
                        ==> forall u :: u in st.users ==> u.id != s.authorId
  {
    FirstArticle(st.submissions, st.users, id)
  }

  function FirstArticle(subs: seq<Submission>, users: seq<User>, id: Id): (r: Option<ArticleRow>)
    ensures r.Some? ==> && r.value.submission in subs && r.value.submission.id == id
                        && r.value.submission.status == Published
                        && r.value.author in users && r.value.author.id == r.value.submission.authorId
    ensures r.None? <==>
            forall s :: s in subs && s.id == id && s.status == Published
                        ==> forall u :: u in users ==> u.id != s.authorId
  {
    if subs == [] then None
    else
      var s := subs[0];
      var found :=
        if s.id == id && s.status == Published then
          match UserById(users, s.authorId)
          case None => None
          case Some(u) => Some(ArticleRow(s, u))
        else None;
      assert forall t :: t in subs ==> t == s || t in subs[1..];
      if found.Some? then found else FirstArticle(subs[1..], users, id)
  }

  /** What the home page lists can be opened: with unique submission ids,
      the article page of a recent article shows that same submission. */
  lemma RecentArticleOpens(st: Store, a: ArticleRow)
    requires SubmissionIdsUnique(st.submissions)
    requires a in RecentArticles(st)
    ensures ArticleById(st, a.submission.id).Some?
    ensures ArticleById(st, a.submission.id).value.submission == a.submission
  {
    var r := ArticleById(st, a.submission.id);
    assert IsPublicRow(st, a);
    var t := r.value.submission;
    var i :| 0 <= i < |st.submissions| && st.submissions[i] == t;
    var j :| 0 <= j < |st.submissions| && st.submissions[j] == a.submission;
    assert i == j;
  }

  /** `index`'s current issue: an issue flagged current and published, or
      none when no issue is both. Several may qualify; the query returns one
      of them, and the model the first. */
  function CurrentIssue(st: Store): (r: Option<Issue>)
    ensures r.Some? ==> r.value in st.issues && r.value.isCurrent && r.value.status == IssuePublished
    ensures r.None? <==> forall i :: i in st.issues ==> !(i.isCurrent && i.status == IssuePublished)
  {
    FirstCurrent(st.issues)
  }

  function FirstCurrent(issues: seq<Issue>): (r: Option<Issue>)
    ensures r.Some? ==> r.value in issues && r.value.isCurrent && r.value.status == IssuePublished
    ensures r.None? <==> forall i :: i in issues ==> !(i.isCurrent && i.status == IssuePublished)
  {
    if issues == [] then None
    else if issues[0].isCurrent && issues[0].status == IssuePublished then Some(issues[0])
    else
      assert forall i :: i in issues ==> i == issues[0] || i in issues[1..];
      FirstCurrent(issues[1..])
  }
}
